=== FILE: README.md ===
# Pool ball entity — a verified Dafny model

This project models the pool-ball component of a networked billiards game
(`code/PoolBall.cs`): one ball on the table, whose gameplay decisions and
pocketing animation belong to the host of the session. Other participants
receive the host's broadcasts and the replicated alpha.

It covers:

- the table geometry: the strict play-area rectangle, the kitchen, and the
  placement rule that picks the kitchen in round 1 and the rectangle
  otherwise, including the fallback that treats a zero position argument as
  "the ball's current position" (module `Table`);
- the striking rule `CanPlayerHit` (module `Rules`);
- the presentation keys, the material group and the icon class, each with
  a reader that shows the key identifies its ball (modules `Presentation`,
  `Kinds`, and `Decimal` for the integer rendering);
- the ball state and its transitions: start/stop placing, enable/disable
  collisions, respawn, `TryMoveTo`, `StartAnimating`, `OnEnterPocket` and the
  ball-on-ball filter of `OnCollisionStart` (module `Ball`);
- the pocketing animation of `OnUpdate`: alpha decay, the pull toward a
  still-existing pocket, and the exit that re-enables collisions. Alpha
  after k frames is shown to be exactly a (1 - f)^k, which fixes the frame on
  which the animation ends. The animation is also shown to end within a
  simple bound on the number of frames (module `Pocketing`);
- a participant's event history. It is used to prove that alpha stays in
  [0, 1], that kind and number never change, that a non-host originates no
  gameplay fact, and the end-to-end pocketing scenario (module `Session`).

Everything read from globals in the source is a parameter:

- `Networking.IsHost` is `isHost`.
- The rules engine's `RoundCount`, `CurrentPlayer` and `GetBallPlayer(ball)` are `roundCount`, `currentPlayer` and `owner`.
- `Time.Delta` is `dt`.
- The tolerance of `AlmostEqual` is `within`.
- The pockets still alive are a map from pocket handle to position.
- The other ball of a contact is its id and its motion flag, or `None` when the contact is not with a ball.

An assertion of host authority that fails is the `AuthorityViolation`
outcome. The assertion in each such entry point
(`code/PoolBall.cs:22`, `code/PoolBall.cs:75`) comes before any assignment,
so the failed call changes nothing. In a sequence of events the participant then carries on, and the
run counts the failure. Notifications to the rules engine are returned as
values.

Behaviour of the code worth knowing:

- Placement in round 1 tests the kitchen only (`y >= 15`). The bounds test
  is computed and then overwritten, so a position beyond the far cushion
  or beside the table is accepted in round 1 (`Table.RoundOneIgnoresBounds`).
- "A pocketing ball has its collisions disabled" is kept by every transition
  except `StopPlacing` and `EnableCollisions`. `StopPlacing` re-enables
  collisions without looking at `IsAnimating`
  (`Ball.StopPlacingBreaksPocketingGuard`). The code calls `EnableCollisions`
  only after it has cleared `IsAnimating` (`code/PoolBall.cs:139-140`).
- An explicit zero position is judged at the ball's current position, so the
  table centre is only "in bounds" when passed as a non-zero vector or when
  the ball is itself in bounds (`Table.ZeroArgumentMeansCurrentPosition`).
- The pocketing animation runs on the host only. `IsAnimating` has a private
  setter and is not replicated (`code/PoolBall.cs:15`), and only the host's
  `StartAnimating` sets it (`code/PoolBall.cs:72-78`). So the animating branch
  of `OnUpdate` never runs on another participant. Those participants see the
  replicated alpha and the `DisableCollisions`/`EnableCollisions` broadcasts,
  which are events of `Session`.
- A player on the cue ball may never hit the black ball, whatever their balls
  left: `CanPlayerHit` tests only `Type != Black` for them
  (`code/PoolBall.cs:61-63`). It does not grant the black once their balls
  left reach 0 (`Rules.CanPlayerHit`).
- Material groups only tell balls apart for regulation numbering (1 to 7
  within each kind). Spots 8 would share group "8" with the black ball
  (`Presentation.MaterialGroupClashesOutsideRegulation`).

## Model

| member | source | states |
|---|---|---|
| `Table.IsInBounds` | code/PoolBall.cs:200-206 | in bounds exactly when -25 < x < 22 and -48 < y < 46; all four limits exclusive, z not consulted |
| `Table.IsInKitchen` | code/PoolBall.cs:214-217 | in the kitchen exactly when y >= 15, whatever x and z |
| `Table.IsBallPlacementValid` | code/PoolBall.cs:187-192 | in round 1 placement validity is exactly the kitchen test; in any other round it is exactly the bounds test |
| `Table.IsInBoundsAt` | code/PoolBall.cs:195-207 | with a zero argument the answer is whether the current position is strictly inside the rectangle; with any other argument, whether the argument is |
| `Table.IsInKitchenAt` | code/PoolBall.cs:209-218 | with a zero argument the answer is whether the current position has y >= 15; with any other argument, whether the argument has |
| `Table.IsBallPlacementValidAt` | code/PoolBall.cs:182-193 | after the same fallback, round 1 gives the kitchen answer and every other round the bounds answer |
| `Table.Resolve` | code/PoolBall.cs:182-185 | the default (zero) argument is replaced by the current position; any other argument is used as given |
| `Table.ZeroArgumentMeansCurrentPosition` | code/PoolBall.cs:195-198 | with a zero argument each of the three predicates answers for the current position, so the in-bounds centre reads as out of bounds when the ball is at (30, 0, 0) |
| `Table.ExplicitArgumentUsed` | code/PoolBall.cs:209-212 | with a non-zero argument each predicate answers for that argument, independent of the current position |
| `Table.HeightIgnored` | code/PoolBall.cs:195-218 | bounds, kitchen and placement answers do not depend on the z coordinate |
| `Table.BoundaryExamples` | code/PoolBall.cs:200-217 | the centre is in bounds; x = 22, -25, 23, -26 and y = 46, -48, 47, -49 are out; y = 15 and 16 are in the kitchen, y = 14 is not |
| `Table.RoundOneIgnoresBounds` | code/PoolBall.cs:187-190 | in round 1, (0, 100) and (-40, 20) are valid placements although neither is in bounds |
| `Rules.CanPlayerHit` | code/PoolBall.cs:59-70 | a cue-ball player may hit anything but the black; any other player may hit a ball the rules engine assigns to them, or the black once their balls left is 0, and nothing else |
| `Rules.OthersBallsForbidden` | code/PoolBall.cs:61-69 | an assigned player may hit a non-black ball if and only if it is assigned to them |
| `Rules.BlackOnlyWhenCleared` | code/PoolBall.cs:61-69 | an unassigned black may be hit exactly by a non-cue player with no balls left |
| `Rules.ClearingNeverRevokes` | code/PoolBall.cs:59-70 | whatever a player may hit, they may still hit once their balls left drops to 0 |
| `Rules.IdentityOnlyThroughOwner` | code/PoolBall.cs:66-67 | the player's identity matters only through the comparison with the ball's owner |
| `Presentation.GetMaterialGroup` | code/PoolBall.cs:145-154 | every material group key is non-empty; what it identifies is stated by the lemmas below |
| `Presentation.MaterialGroupShowsPrintedNumber` | code/PoolBall.cs:145-154 | for every non-cue ball the material group parses back as the printed ball number: 8 for black, n for spots, n + 8 for stripes |
| `Presentation.DefaultGroupIsCueBall` | code/PoolBall.cs:147-153 | the key is "default" exactly for the white ball |
| `Presentation.MaterialGroupIdentifiesBall` | code/PoolBall.cs:145-154 | within regulation numbering two balls share a material group if and only if they are the same ball |
| `Presentation.MaterialGroupClashesOutsideRegulation` | code/PoolBall.cs:149-151 | outside regulation numbering the key stops identifying the ball: spots 8 collides with black, spots 9 with stripes 1 |
| `Presentation.MaterialGroupExamples` | code/PoolBall.cs:147-153 | black gives "8", spots 5 gives "5", stripes 5 gives "13", white gives "default" |
| `Presentation.ToLower` | code/PoolBall.cs:55 | lower-casing keeps the length and maps each character to its lower-case form |
| `Presentation.LowerNames` | code/PoolBall.cs:55 | the lower-cased kind names are "spots" and "stripes" |
| `Presentation.GetIconClass` | code/PoolBall.cs:49-57 | every icon class is non-empty; what it identifies is stated by the lemmas below |
| `Presentation.SpotsIconRoundTrip` | code/PoolBall.cs:55 | the icon class of spots n reads back as spots n |
| `Presentation.StripesIconRoundTrip` | code/PoolBall.cs:55 | the icon class of stripes n reads back as stripes n |
| `Presentation.IconClassRoundTrip` | code/PoolBall.cs:49-57 | every icon class reads back as the ball's kind and, for spots and stripes, its number |
| `Presentation.IconClassIdentifiesBall` | code/PoolBall.cs:49-57 | for every numbering two balls share an icon class if and only if they are the same ball |
| `Presentation.IconClassExamples` | code/PoolBall.cs:53-55 | spots 3 gives "spots_3", stripes 7 gives "stripes_7", black and white give "black" and "white" |
| `Ball.DisableCollisions` | code/PoolBall.cs:80-85 | collisions and motion end up off; position, velocities, forces, look, identity and game facts are kept |
| `Ball.EnableCollisions` | code/PoolBall.cs:87-92 | collisions and motion end up on; everything else is kept |
| `Ball.StartPlacing` | code/PoolBall.cs:27-32 | collisions and motion end up off; everything else is kept |
| `Ball.StopPlacing` | code/PoolBall.cs:94-102 | collisions and motion end up on, both velocities and the forces are zero, the position, look, identity and game facts are kept |
| `Ball.Respawn` | code/PoolBall.cs:34-47 | alpha is 1, scale is 1, the ball is at the given position with zero velocities and forces; collision and motion flags and game facts are kept |
| `Ball.TryMoveTo` | code/PoolBall.cs:104-109 | on a non-host nothing changes; on the host x and y become the target's and z stays; nothing but the position ever changes |
| `Ball.StartAnimating` | code/PoolBall.cs:72-78 | already animating: unchanged, whoever calls; otherwise a non-host call is an authority violation and a host call leaves the ball animating with collisions and motion off, keeping kinematics, look, identity, striker and pocket |
| `Ball.EnterPocket` | code/PoolBall.cs:20-25 | a non-host call is an authority violation, and only that; a host call records exactly the pocket and notifies the rules engine of it |
| `Ball.CollisionStart` | code/PoolBall.cs:156-170 | unless host, other is a ball, and both balls may move, nothing changes and nothing is reported; otherwise the current player becomes the striker and exactly one hit on the other ball is reported |
| `Ball.StartAnimatingIdempotent` | code/PoolBall.cs:72-78 | starting the animation a second time changes nothing |
| `Ball.StartPlacingIdempotent` | code/PoolBall.cs:27-32 | starting placement (and disabling collisions) twice equals doing it once |
| `Ball.StopPlacingIdempotent` | code/PoolBall.cs:94-102 | stopping placement twice equals doing it once |
| `Ball.PlaceThenRelease` | code/PoolBall.cs:28-101 | starting then stopping placement keeps the position and game facts and leaves the ball at rest with collisions and motion on |
| `Ball.MoveKeepsPlacementValidity` | code/PoolBall.cs:104-109 | a host move to a valid placement leaves the ball on a valid placement, despite the kept height |
| `Ball.TransitionsKeepConsistency` | code/PoolBall.cs:72-85 | alpha in [0, 1] and "animating implies collisions off" survive every transition, and survive `StopPlacing` and `EnableCollisions` on a ball not animating |
| `Ball.StopPlacingBreaksPocketingGuard` | code/PoolBall.cs:94-102 | on an animating ball `StopPlacing` re-enables collisions while it keeps animating |
| `Pocketing.PocketTarget` | code/PoolBall.cs:134-135 | a target exists exactly when the ball has a last pocket and that pocket is still alive, and it is that pocket's position |
| `Pocketing.Lerp` | code/PoolBall.cs:132-135 | the offset to the target is scaled by exactly 1 - clamp(frac) |
| `Pocketing.AlmostZero` | code/PoolBall.cs:137 | true exactly when the value lies within the tolerance of 0, on either side |
| `Pocketing.LerpApproaches` | code/PoolBall.cs:135 | one interpolation step never moves a coordinate farther from its target |
| `Pocketing.OnUpdate` | code/PoolBall.cs:130-142 | idle balls are unchanged; an animating ball's alpha is scaled by (1 - clamp(5 dt)); it stops animating exactly when alpha is within the tolerance of 0, and then has collisions and motion on; alpha stays in [0, 1] and never grows; without a live pocket the position is kept, with one, each coordinate's distance to it is scaled by exactly 1 - clamp(16 dt), so it gets no farther; velocities, identity, scale, striker and pocket are kept |
| `Pocketing.PullToward` | code/PoolBall.cs:134-135 | without a live pocket the position is kept; with one, each coordinate's offset from the pocket is multiplied by exactly 1 - clamp(frac), so it ends no farther away |
| `Pocketing.DecayKeepsFraction` | code/PoolBall.cs:132 | interpolating alpha toward 0 multiplies it by 1 - clamp(frac), so a non-negative alpha stays between 0 and its old value |
| `Pocketing.FrameKeepsGeometric` | code/PoolBall.cs:130-141 | if alpha was a (1 - f)^(k-1) when animating, after one more frame it is a (1 - f)^k when still animating, and the ball is still animating exactly when it was and that value is above the tolerance |
| `Pocketing.AlphaIsGeometric` | code/PoolBall.cs:130-141 | while the animation lasts, alpha after k frames is exactly the starting alpha times (1 - f)^k |
| `Pocketing.AnimatingExactly` | code/PoolBall.cs:130-141 | the ball is still animating after n frames if and only if none of the alphas a (1 - f)^j, j = 1..n, is within the tolerance of 0 |
| `Pocketing.FrameKeepsDecayBound` | code/PoolBall.cs:130-141 | one frame carries the decay bound alpha (1 + k f) <= 1 from k frames to k + 1 |
| `Pocketing.DecayBound` | code/PoolBall.cs:130-141 | after k frames alpha is in [0, 1] and either the animation ended with collisions on or alpha is above the tolerance and at most 1 / (1 + k f) |
| `Pocketing.BoundForcesEnd` | code/PoolBall.cs:137-141 | a ball within the decay bound of n frames with n f tolerance >= 1 is no longer animating and can be struck |
| `Pocketing.PocketingEnds` | code/PoolBall.cs:130-141 | after n frames of equal length dt, with f = clamp(5 dt), the animation has ended whenever n f tolerance >= 1, with collisions and motion back on |
| `Pocketing.TicksKeepFacts` | code/PoolBall.cs:130-142 | frames never change kind, number, striker or pocket |
| `Pocketing.RestartNeedsRespawn` | code/PoolBall.cs:130-141 | restarting a finished animation without a respawn ends on the next frame; after a respawn it restarts from alpha 1 |
| `Session.StepKeepsAlphaAndIdentity` | code/PoolBall.cs:11-18 | every event, including the collision broadcasts, keeps alpha in [0, 1] and kind and number unchanged |
| `Session.RunKeepsAlphaAndIdentity` | code/PoolBall.cs:11-18 | across any sequence of events, including events that fail the host assertion, alpha stays in [0, 1] and kind and number never change |
| `Session.PeerStepOriginatesNothing` | code/PoolBall.cs:20-170 | on a non-host no event, including the received `DisableCollisions`/`EnableCollisions` broadcasts, records a striker or pocket, starts an animation, or notifies the rules engine |
| `Session.PeerRunOriginatesNothing` | code/PoolBall.cs:20-170 | the same holds across any sequence of events on a non-host, including the events it refuses |
| `Session.HostStepSucceeds` | code/PoolBall.cs:20-170 | on the host no event fails the host assertion |
| `Session.HostRunHasNoViolations` | code/PoolBall.cs:20-170 | a run on the host never fails the host assertion |
| `Session.PeerStepFailsExactly` | code/PoolBall.cs:20-78 | on a non-host an event fails the host assertion exactly when it is `OnEnterPocket`, or `StartAnimating` on a ball not yet animating |
| `Session.PocketingScenario` | code/PoolBall.cs:20-141 | host: enter pocket, start animating, then enough frames: no event fails the host assertion, the rules engine hears of the pocket exactly once, and the ball ends idle with collisions and motion on, the pocket recorded and its identity unchanged |
| `Decimal.FromInt` | code/PoolBall.cs:150-151 | the rendering is non-empty, starts with '-' exactly for negative numbers, and is all digits otherwise (after the sign for negatives) |
| `Decimal.FromIntRoundTrip` | code/PoolBall.cs:150-151 | the decimal rendering of every integer parses back to it |
| `Decimal.FromIntInjective` | code/PoolBall.cs:150-151 | two integers render alike exactly when they are equal |

## Left out

- Sound playback (`PlayPocketSound`, `PlayCollideSound`): random pitch and sample, float volume, audio engine.
- Renderer handling (material group and tint assignment in `OnUpdate` and `Respawn`): engine presentation calls; the keys themselves are modelled.
- Broadcast delivery and the host-only permission on who may invoke a broadcast: network transport. Each broadcast is modelled as the body every participant runs.
- `[Sync]` replication of `RenderAlpha` from host to peers: network transport.
- `Ball.Respawn`: assumes the entity has a model renderer. The source reads its renderer with no null check (`code/PoolBall.cs:41-42`), so without one the call throws before the velocities and forces are zeroed. The model always completes the respawn.
- `OnStart`: its damping setup and rigid-body internals are not modelled, nor its reset of alpha to 1 (`code/PoolBall.cs:115`); a run may start from any alpha in [0, 1], which covers the reset. Velocities and forces are fields set to zero; `ClearForces` zeroes `forces`.
- Floating point: positions, alpha and frame times are reals, so float rounding in `LerpTo` and `AlmostEqual` is not modelled. `LerpTo` is `a + (b - a) * clamp01(frac)`. `AlmostEqual(0)` is `|x| <= within` with the tolerance as a parameter.
- `PoolBallType`, `PoolBallNumber` and the rules engine's `GameState` are not part of this model. The kinds are the four the ball code names. A number is the enumeration's integer value, unbounded, so 32-bit overflow of `(int)Number + 8` is not modelled. Enumeration values are small.
- `ToLower` is modelled for ASCII letters only; culture-specific casing is not modelled, and the enumeration names are ASCII.
- `OnCollisionUpdate` and `OnCollisionStop` have empty bodies and are not modelled.
- `Presentation.GetMaterialGroup`: its own contract says only that the key is non-empty. What the key means is stated by `MaterialGroupShowsPrintedNumber`, `DefaultGroupIsCueBall` and `MaterialGroupIdentifiesBall`.
- `Presentation.GetIconClass`: its own contract says only that the class is non-empty. What the class means is stated by `IconClassRoundTrip` and `IconClassIdentifiesBall`.
- `Decimal.FromInt`: renders the minus sign as ASCII '-'. The source's `ToString()` and string interpolation use the current culture, which may choose another negative sign. Digits and the rendering of non-negative numbers do not depend on culture, and regulation numbers are positive.

=== FILE: ball.dfy ===
/**
 The ball entity's state and the per-peer bodies of its transitions.

 A transition marked as a host-only broadcast in the source runs the same body
 on every peer; what is modelled is that body. Where the body itself consults
 `Networking.IsHost`, the flag is the parameter `isHost`. Rigid-body fields
 (`EnableSolidCollisions`, `MotionEnabled`, velocities, accumulated forces)
 are plain fields of the state.
 */
module Ball {
  import opened Results
  import opened Kinds
  import opened Table
  import opened Rules

  type PocketId = nat
  type BallId = nat

  datatype BallState = BallState(
    kind: BallType,
    number: int,
    collisions: bool,
    motion: bool,
    isAnimating: bool,
    renderAlpha: real,
    scale: real,
    position: Vec3,
    velocity: Vec3,
    angularVelocity: Vec3,
    forces: Vec3,
    lastStriker: Option<PlayerId>,
    lastPocket: Option<PocketId>)

  /** What the ball reports to the rules engine. */
  datatype Notification =
    | BallEnteredPocket(pocket: PocketId)
    | BallHitOtherBall(other: BallId)

  /** The contact partner, once resolved to a ball: its identity and whether it may move. */
  datatype OtherBall = OtherBall(id: BallId, motion: bool)

  /** Kind and number are fixed at spawn. */
  predicate SameIdentity(a: BallState, b: BallState) {
    a.kind == b.kind && a.number == b.number
  }

  predicate SameBody(a: BallState, b: BallState) {
    a.collisions == b.collisions && a.motion == b.motion
  }

  predicate SameKinematics(a: BallState, b: BallState) {
    a.position == b.position && a.velocity == b.velocity
    && a.angularVelocity == b.angularVelocity && a.forces == b.forces
  }

  predicate SameLook(a: BallState, b: BallState) {
    a.renderAlpha == b.renderAlpha && a.scale == b.scale
  }

  predicate SameGameFacts(a: BallState, b: BallState) {
    a.isAnimating == b.isAnimating && a.lastStriker == b.lastStriker && a.lastPocket == b.lastPocket
  }

  /** The state the entity promises to keep: alpha is a fraction, and a pocketing ball cannot be struck. */
  predicate Consistent(s: BallState) {
    0.0 <= s.renderAlpha <= 1.0 && (s.isAnimating ==> !s.collisions)
  }

  /** `DisableCollisions` */
  function DisableCollisions(s: BallState): (r: BallState)
    ensures !r.collisions && !r.motion
    ensures SameIdentity(s, r) && SameKinematics(s, r) && SameLook(s, r) && SameGameFacts(s, r)
  {
    s.(collisions := false, motion := false)
  }

  /** `EnableCollisions` */
  function EnableCollisions(s: BallState): (r: BallState)
    ensures r.collisions && r.motion
    ensures SameIdentity(s, r) && SameKinematics(s, r) && SameLook(s, r) && SameGameFacts(s, r)
  {
    s.(collisions := true, motion := true)
  }

  /** `StartPlacing`: the ball is lifted out of the simulation while it is dragged. Same body as `DisableCollisions`. */
  function StartPlacing(s: BallState): (r: BallState)
    ensures !r.collisions && !r.motion
    ensures SameIdentity(s, r) && SameKinematics(s, r) && SameLook(s, r) && SameGameFacts(s, r)
  {
    DisableCollisions(s)
  }

  /** `StopPlacing`: back into the simulation, at rest. */
  function StopPlacing(s: BallState): (r: BallState)
    ensures r.collisions && r.motion
    ensures r.velocity == Zero && r.angularVelocity == Zero && r.forces == Zero
    ensures r.position == s.position
    ensures SameIdentity(s, r) && SameLook(s, r) && SameGameFacts(s, r)
  {
    s.(collisions := true, motion := true, angularVelocity := Zero, velocity := Zero, forces := Zero)
  }

  /** `Respawn`: fully visible, default scale, at rest at `p`; the body flags and game facts are untouched. */
  function Respawn(s: BallState, p: Vec3): (r: BallState)
    ensures r.renderAlpha == 1.0 && r.scale == 1.0 && r.position == p
    ensures r.velocity == Zero && r.angularVelocity == Zero && r.forces == Zero
    ensures SameIdentity(s, r) && SameBody(s, r) && SameGameFacts(s, r)
  {
    s.(renderAlpha := 1.0, scale := 1.0, position := p, angularVelocity := Zero, velocity := Zero, forces := Zero)
  }

  /**
   `TryMoveTo`: broadcast by anyone, applied only where it runs on the host,
   and only in the plane: the height is kept.
   */
  function TryMoveTo(s: BallState, isHost: bool, p: Vec3): (r: BallState)
    ensures !isHost ==> r == s
    ensures isHost ==> r.position.x == p.x && r.position.y == p.y && r.position.z == s.position.z
    ensures r.(position := s.position) == s
  {
    if !isHost then s else s.(position := Vec3(p.x, p.y, s.position.z))
  }

  /**
   `StartAnimating`: a no-op while already animating; otherwise asserts host
   authority, marks the ball as animating and disables its collisions.
   */
  function StartAnimating(s: BallState, isHost: bool): (r: Outcome<BallState>)
    ensures s.isAnimating ==> r == Ok(s)
    ensures !s.isAnimating && !isHost ==> r == AuthorityViolation
    ensures !s.isAnimating && isHost ==> r.Ok? && r.value.isAnimating && !r.value.collisions && !r.value.motion
    ensures r.Ok? ==> SameIdentity(s, r.value) && SameKinematics(s, r.value) && SameLook(s, r.value)
    ensures r.Ok? ==> r.value.lastStriker == s.lastStriker && r.value.lastPocket == s.lastPocket
  {
    if s.isAnimating then Ok(s)
    else if !isHost then AuthorityViolation
    else Ok(DisableCollisions(s.(isAnimating := true)))
  }

  /** `OnEnterPocket`: host only; remembers the pocket as the animation target and tells the rules engine. */
  function EnterPocket(s: BallState, isHost: bool, pocket: PocketId): (r: Outcome<(BallState, Notification)>)
    ensures !isHost <==> r == AuthorityViolation
    ensures r.Ok? ==> r.value.1 == BallEnteredPocket(pocket) && r.value.0 == s.(lastPocket := Some(pocket))
  {
    if !isHost then AuthorityViolation else Ok((s.(lastPocket := Some(pocket)), BallEnteredPocket(pocket)))
  }

  /** The guard of `OnCollisionStart`: host, a ball on the other side, and both balls free to move. */
  predicate CountsAsHit(s: BallState, isHost: bool, other: Option<OtherBall>) {
    isHost && other.Some? && s.motion && other.value.motion
  }

  /**
   `OnCollisionStart`: a genuine ball-on-ball contact records the current
   player as the striker and is reported; anything else is ignored.
   */
  function CollisionStart(s: BallState, isHost: bool, other: Option<OtherBall>, currentPlayer: Option<PlayerId>)
    : (r: (BallState, seq<Notification>))
    ensures !CountsAsHit(s, isHost, other) ==> r == (s, [])
    ensures CountsAsHit(s, isHost, other) ==>
              r.0 == s.(lastStriker := currentPlayer) && r.1 == [BallHitOtherBall(other.value.id)]
    ensures r.0.lastStriker != s.lastStriker ==> isHost && other.Some? && s.motion && other.value.motion
  {
    if !isHost then (s, [])
    else if other.None? then (s, [])
    else if !s.motion then (s, [])
    else if !other.value.motion then (s, [])
    else (s.(lastStriker := currentPlayer), [BallHitOtherBall(other.value.id)])
  }

  /** Starting to animate twice is starting once. */
  lemma StartAnimatingIdempotent(s: BallState, isHost: bool)
    requires StartAnimating(s, isHost).Ok?
    ensures StartAnimating(StartAnimating(s, isHost).value, isHost) == StartAnimating(s, isHost)
  {
  }

  /** Starting placement is idempotent, so a redelivered broadcast is harmless; so is disabling collisions. */
  lemma StartPlacingIdempotent(s: BallState)
    ensures StartPlacing(StartPlacing(s)) == StartPlacing(s)
    ensures DisableCollisions(DisableCollisions(s)) == DisableCollisions(s)
  {
  }

  /** Stopping placement is idempotent, so a redelivered broadcast is harmless. */
  lemma StopPlacingIdempotent(s: BallState)
    ensures StopPlacing(StopPlacing(s)) == StopPlacing(s)
  {
  }

  /** Placing a ball and releasing it leaves it where it was, at rest and back in the simulation. */
  lemma PlaceThenRelease(s: BallState)
    ensures var r := StopPlacing(StartPlacing(s));
            r.position == s.position && r.collisions && r.motion && r.velocity == Zero && SameGameFacts(s, r)
  {
  }

  /** A host-side drag to a valid spot leaves the ball on a valid spot: placement checks ignore the height. */
  lemma MoveKeepsPlacementValidity(s: BallState, p: Vec3, roundCount: int)
    requires IsBallPlacementValid(p, roundCount)
    ensures IsBallPlacementValid(TryMoveTo(s, true, p).position, roundCount)
  {
    HeightIgnored(p, s.position.z, roundCount);
  }

  /**
   Every transition other than `StopPlacing` and `EnableCollisions` keeps a
   consistent ball consistent. Those two keep it only on a ball that is not
   animating, and the source calls `EnableCollisions` only after clearing the
   animating flag.
   */
  lemma TransitionsKeepConsistency(s: BallState, isHost: bool, p: Vec3, pocket: PocketId,
                                   other: Option<OtherBall>, currentPlayer: Option<PlayerId>)
    requires Consistent(s)
    ensures Consistent(StartPlacing(s)) && Consistent(DisableCollisions(s))
    ensures Consistent(Respawn(s, p)) && Consistent(TryMoveTo(s, isHost, p))
    ensures StartAnimating(s, isHost).Ok? ==> Consistent(StartAnimating(s, isHost).value)
    ensures EnterPocket(s, isHost, pocket).Ok? ==> Consistent(EnterPocket(s, isHost, pocket).value.0)
    ensures Consistent(CollisionStart(s, isHost, other, currentPlayer).0)
    ensures !s.isAnimating ==> Consistent(StopPlacing(s)) && Consistent(EnableCollisions(s))
  {
  }

  /** `StopPlacing` on a ball that is pocketing makes it strikable mid-animation. */
  lemma StopPlacingBreaksPocketingGuard(s: BallState)
    requires Consistent(s) && s.isAnimating
    ensures !Consistent(StopPlacing(s))
    ensures StopPlacing(s).isAnimating && StopPlacing(s).collisions
  {
  }
}

=== FILE: decimal.dfy ===
/**
 The decimal rendering of an integer, as `int.ToString()` produces it with an
 ASCII minus sign: an optional leading '-' followed by the digits of the
 magnitude, with no leading zeros. `Parse` is its inverse; the round-trip lemma
 is what lets the presentation keys be told apart.
 */
module Decimal {
  import opened Results

  predicate IsDigit(c: char) {
    '0' <= c <= '9'
  }

  predicate AllDigits(s: string) {
    forall i :: 0 <= i < |s| ==> IsDigit(s[i])
  }

  function DigitValue(c: char): (d: int)
    requires IsDigit(c)
    ensures 0 <= d < 10
  {
    c as int - '0' as int
  }

  function DigitChar(d: int): (c: char)
    requires 0 <= d < 10
    ensures IsDigit(c) && DigitValue(c) == d
  {
    ('0' as int + d) as char
  }

  /** The digits of a natural number, most significant first. */
  function NatDigits(n: nat): (s: string)
    ensures |s| >= 1
    ensures AllDigits(s)
    ensures s[0] == '0' ==> n == 0
    decreases n
  {
    if n < 10 then [DigitChar(n)] else NatDigits(n / 10) + [DigitChar(n % 10)]
  }

  /** The number a non-empty or empty string of digits denotes (empty denotes 0). */
  function DigitsValue(s: string): nat
    requires AllDigits(s)
    decreases |s|
  {
    if |s| == 0 then 0 else DigitsValue(s[..|s| - 1]) * 10 + DigitValue(s[|s| - 1])
  }

  /** `int.ToString()` */
  function FromInt(n: int): (s: string)
    ensures |s| >= 1
    ensures s[0] == '-' <==> n < 0
    ensures n >= 0 ==> AllDigits(s)
    ensures n < 0 ==> AllDigits(s[1..])
  {
    if n < 0 then "-" + NatDigits(-n) else NatDigits(n)
  }

  /** Reads back an optionally signed, non-empty digit string. */
  function Parse(s: string): Option<int> {
    if |s| >= 2 && s[0] == '-' && AllDigits(s[1..]) then var m: int := DigitsValue(s[1..]); Some(-m)
    else if |s| >= 1 && AllDigits(s) then Some(DigitsValue(s))
    else None
  }

  lemma {:induction false} DigitsValueOfNatDigits(n: nat)
    ensures DigitsValue(NatDigits(n)) == n
    decreases n
  {
    if n >= 10 {
      var s := NatDigits(n);
      assert s[..|s| - 1] == NatDigits(n / 10);
      DigitsValueOfNatDigits(n / 10);
    }
  }

  /** Parsing the rendering of any integer gives the integer back. */
  lemma FromIntRoundTrip(n: int)
    ensures Parse(FromInt(n)) == Some(n)
  {
    var s := FromInt(n);
    if n < 0 {
      var digits := NatDigits(-n);
      assert s == "-" + digits;
      assert s[1..] == digits;
      DigitsValueOfNatDigits(-n);
      assert |s| >= 2 && s[0] == '-' && AllDigits(s[1..]);
    } else {
      assert s == NatDigits(n);
      DigitsValueOfNatDigits(n);
      assert IsDigit(s[0]);
    }
  }

  /** Two integers render alike exactly when they are equal. */
  lemma FromIntInjective(a: int, b: int)
    ensures FromInt(a) == FromInt(b) <==> a == b
  {
    FromIntRoundTrip(a);
    FromIntRoundTrip(b);
  }
}

=== FILE: kinds.dfy ===
/**
 Ball identity: the kind and the number fixed when the ball is spawned.
 The enumerations themselves (`PoolBallType`, `PoolBallNumber`) are not part of
 this model; the kinds are those the ball code names, and the number is the
 enumeration's integer value.
 */
module Kinds {

  datatype BallType = White | Black | Spots | Stripes

  /** The kinds that carry a number in their presentation keys. */
  predicate Numbered(t: BallType) {
    t == Spots || t == Stripes
  }

  /** The enumeration member's name, as `ToString()` gives it. */
  function TypeName(t: BallType): string {
    match t
    case White => "White"
    case Black => "Black"
    case Spots => "Spots"
    case Stripes => "Stripes"
  }

  /** A regulation set: seven spotted and seven striped balls numbered 1 to 7 within their kind. */
  predicate Regulation(t: BallType, n: int) {
    Numbered(t) ==> 1 <= n <= 7
  }

  /** Two balls are the same ball of a set when kind agrees, and number too where the kind is numbered. */
  predicate SameBall(t1: BallType, n1: int, t2: BallType, n2: int) {
    t1 == t2 && (Numbered(t1) ==> n1 == n2)
  }
}

=== FILE: pocketing.dfy ===
/**
 The pocketing animation of `OnUpdate`: while the ball is animating, its alpha
 decays toward 0 and, if its pocket still exists, its position is drawn toward
 the pocket; once alpha is within the tolerance of 0 the ball stops animating
 and its collisions are re-enabled.

 The animating flag is private and not replicated, and only the host's
 `StartAnimating` sets it, so this branch runs on the host alone; other
 participants see the replicated alpha and the collision broadcasts.

 Frame time and the tolerance of `AlmostEqual` are parameters; the live
 pockets are a registry from pocket handle to position, so that a destroyed
 pocket is simply absent from it.
 */
module Pocketing {
  import opened Results
  import opened Table
  import opened Ball

  /** Per-second rates of the two interpolations: alpha toward 0, position toward the pocket. */
  const AlphaRate: real := 5.0
  const MoveRate: real := 16.0

  function Clamp01(x: real): (c: real)
    ensures 0.0 <= c <= 1.0
    ensures 0.0 <= x <= 1.0 ==> c == x
  {
    if x < 0.0 then 0.0 else if x > 1.0 then 1.0 else x
  }

  /** `LerpTo` with its default clamping of the fraction. */
  function Lerp(a: real, b: real, frac: real): (r: real)
    ensures r - b == (a - b) * (1.0 - Clamp01(frac))
  {
    a + (b - a) * Clamp01(frac)
  }

  function LerpVec(p: Vec3, q: Vec3, frac: real): Vec3 {
    Vec3(Lerp(p.x, q.x, frac), Lerp(p.y, q.y, frac), Lerp(p.z, q.z, frac))
  }

  function Abs(x: real): real {
    if x < 0.0 then -x else x
  }

  /** Whether a value is almost zero, up to the tolerance `within`. */
  function AlmostZero(x: real, within: real): (b: bool)
    ensures b <==> -within <= x <= within
  {
    Abs(x) <= within
  }

  /** `q` is at least as near to `target` as `p`, coordinate by coordinate. */
  predicate NoFarther(q: Vec3, p: Vec3, target: Vec3) {
    Abs(q.x - target.x) <= Abs(p.x - target.x)
    && Abs(q.y - target.y) <= Abs(p.y - target.y)
    && Abs(q.z - target.z) <= Abs(p.z - target.z)
  }

  /** The pocket to move toward: the last pocket entered, if it is still alive. */
  function PocketTarget(s: BallState, livePockets: map<PocketId, Vec3>): (t: Option<Vec3>)
    ensures t.Some? <==> s.lastPocket.Some? && s.lastPocket.value in livePockets
    ensures t.Some? ==> t.value == livePockets[s.lastPocket.value]
  {
    if s.lastPocket.Some? && s.lastPocket.value in livePockets then Some(livePockets[s.lastPocket.value]) else None
  }

  lemma LerpApproaches(a: real, b: real, frac: real)
    ensures Abs(Lerp(a, b, frac) - b) <= Abs(a - b)
  {
    var f := Clamp01(frac);
    var d := a - b;
    assert Lerp(a, b, frac) - b == d * (1.0 - f);
    assert d * (1.0 - f) == d - d * f;
    if d >= 0.0 {
      assert d * f >= 0.0 && d * f <= d * 1.0;
    } else {
      assert d * f <= 0.0 && d * f >= d * 1.0;
    }
  }

  /** Scaling a non-negative value by 1 - f, with f a fraction, keeps it between 0 and itself. */
  lemma ScaleBetween(a: real, f: real)
    requires 0.0 <= a && 0.0 <= f <= 1.0
    ensures 0.0 <= a * (1.0 - f) <= a
  {
    assert a * (1.0 - f) == a - a * f;
    assert 0.0 <= a * f <= a * 1.0;
  }

  /** The position after one frame's pull toward the pocket, if there is one. */
  function PullToward(p: Vec3, target: Option<Vec3>, frac: real): (q: Vec3)
    ensures target.None? ==> q == p
    ensures target.Some? ==> q.x - target.value.x == (p.x - target.value.x) * (1.0 - Clamp01(frac))
    ensures target.Some? ==> q.y - target.value.y == (p.y - target.value.y) * (1.0 - Clamp01(frac))
    ensures target.Some? ==> q.z - target.value.z == (p.z - target.value.z) * (1.0 - Clamp01(frac))
    ensures target.Some? ==> NoFarther(q, p, target.value)
  {
    if target.None? then p
    else
      LerpApproaches(p.x, target.value.x, frac);
      LerpApproaches(p.y, target.value.y, frac);
      LerpApproaches(p.z, target.value.z, frac);
      LerpVec(p, target.value, frac)
  }

  /** Interpolating a non-negative alpha toward 0 scales it by 1 - clamp(frac), so it neither grows nor turns negative. */
  lemma DecayKeepsFraction(a: real, frac: real)
    ensures Lerp(a, 0.0, frac) == a * (1.0 - Clamp01(frac))
    ensures 0.0 <= a ==> 0.0 <= Lerp(a, 0.0, frac) <= a
  {
    if 0.0 <= a {
      ScaleBetween(a, Clamp01(frac));
    }
  }

  /** One frame of `OnUpdate` (the renderer updates aside). */
  function OnUpdate(s: BallState, dt: real, livePockets: map<PocketId, Vec3>, within: real): (r: BallState)
    ensures !s.isAnimating ==> r == s
    ensures s.isAnimating ==> r.renderAlpha == s.renderAlpha * (1.0 - Clamp01(dt * AlphaRate))
    ensures s.isAnimating ==> (r.isAnimating <==> !AlmostZero(r.renderAlpha, within))
    ensures s.isAnimating && !r.isAnimating ==> r.collisions && r.motion
    ensures r.isAnimating ==> SameBody(s, r)
    ensures 0.0 <= s.renderAlpha <= 1.0 ==> 0.0 <= r.renderAlpha <= s.renderAlpha
    ensures s.isAnimating ==> r.position == PullToward(s.position, PocketTarget(s, livePockets), dt * MoveRate)
    ensures PocketTarget(s, livePockets).None? ==> r.position == s.position
    ensures PocketTarget(s, livePockets).Some? ==> NoFarther(r.position, s.position, PocketTarget(s, livePockets).value)
    ensures SameIdentity(s, r) && r.scale == s.scale && r.lastStriker == s.lastStriker && r.lastPocket == s.lastPocket
    ensures r.velocity == s.velocity && r.angularVelocity == s.angularVelocity && r.forces == s.forces
    ensures Consistent(s) ==> Consistent(r)
  {
    if !s.isAnimating then s
    else
      var alpha := Lerp(s.renderAlpha, 0.0, dt * AlphaRate);
      var target := PocketTarget(s, livePockets);
      var pos := PullToward(s.position, target, dt * MoveRate);
      var moved := s.(renderAlpha := alpha, position := pos);
      DecayKeepsFraction(s.renderAlpha, dt * AlphaRate);
      if AlmostZero(alpha, within) then EnableCollisions(moved.(isAnimating := false)) else moved
  }

  /** One frame of decay, b = a (1 - f), keeps the bound alpha * (1 + k f) <= 1 with k one further on. */
  lemma DecayStep(a: real, b: real, f: real, j: real, k: real)
    requires 0.0 <= a && 0.0 <= f <= 1.0 && j >= 0.0
    requires b == a * (1.0 - f) && k == j + 1.0
    requires a * (1.0 + j * f) <= 1.0
    ensures b * (1.0 + k * f) <= 1.0
  {
    assert b * (1.0 + k * f) == a * (1.0 + j * f) - a * (k * f * f);
    assert k * f * f >= 0.0;
    assert a * (k * f * f) >= 0.0;
  }

  /** An alpha above the tolerance cannot satisfy the decay bound once m * tolerance >= 1. */
  lemma NoAlphaSurvivesBound(a: real, within: real, m: real)
    requires 0.0 < within < a && m >= 0.0
    requires m * within >= 1.0
    ensures a * (1.0 + m) > 1.0
  {
    assert a * (1.0 + m) == a + a * m;
    assert a * m >= within * m;
  }

  lemma FramesNeeded(n: nat, f: real, within: real)
    requires (n as real) * f * within >= 1.0
    ensures n >= 1
  {
    assert n == 0 ==> (n as real) * f == 0.0;
  }

  /** A state within the decay bound of enough frames has stopped animating. */
  lemma BoundForcesEnd(t: BallState, n: nat, f: real, within: real)
    requires DecayedWithin(t, n, f, within)
    requires within > 0.0 && 0.0 <= f
    requires (n as real) * f * within >= 1.0
    ensures !t.isAnimating && t.collisions && t.motion
  {
    FramesNeeded(n, f, within);
    if t.isAnimating {
      NoAlphaSurvivesBound(t.renderAlpha, within, (n as real) * f);
    }
  }

  /** `n` consecutive frames of equal length. */
  function Ticks(s: BallState, dt: real, livePockets: map<PocketId, Vec3>, within: real, n: nat): BallState
    decreases n
  {
    if n == 0 then s else OnUpdate(Ticks(s, dt, livePockets, within, n - 1), dt, livePockets, within)
  }

  /**
   Where an animation started at alpha at most 1 may stand after `k` frames of
   decay fraction `f`: either it has ended with collisions back on, or alpha is
   above the tolerance and at most 1 / (1 + k f).
   */
  predicate DecayedWithin(t: BallState, k: nat, f: real, within: real) {
    && 0.0 <= t.renderAlpha <= 1.0
    && (!t.isAnimating ==> t.collisions && t.motion)
    && (t.isAnimating ==> t.renderAlpha * (1.0 + (k as real) * f) <= 1.0)
    && (t.isAnimating && k >= 1 ==> t.renderAlpha > within)
  }

  lemma FrameKeepsDecayBound(t: BallState, dt: real, livePockets: map<PocketId, Vec3>, within: real, k: nat)
    requires DecayedWithin(t, k, Clamp01(dt * AlphaRate), within)
    ensures DecayedWithin(OnUpdate(t, dt, livePockets, within), k + 1, Clamp01(dt * AlphaRate), within)
  {
    var u := OnUpdate(t, dt, livePockets, within);
    if t.isAnimating && u.isAnimating {
      DecayStep(t.renderAlpha, u.renderAlpha, Clamp01(dt * AlphaRate), k as real, (k + 1) as real);
    }
  }

  lemma {:induction false} DecayBound(s: BallState, dt: real, livePockets: map<PocketId, Vec3>, within: real, k: nat)
    requires s.isAnimating && 0.0 <= s.renderAlpha <= 1.0
    ensures DecayedWithin(Ticks(s, dt, livePockets, within, k), k, Clamp01(dt * AlphaRate), within)
    decreases k
  {
    if k == 0 {
      assert (k as real) * Clamp01(dt * AlphaRate) == 0.0;
    } else {
      DecayBound(s, dt, livePockets, within, k - 1);
      FrameKeepsDecayBound(Ticks(s, dt, livePockets, within, k - 1), dt, livePockets, within, k - 1);
    }
  }

  /**
   The animation always ends: after `n` frames of equal length `dt`, with
   f = clamp(5 dt) and n * f * tolerance >= 1, the ball is no longer animating
   and can be struck again.
   */
  lemma PocketingEnds(s: BallState, dt: real, livePockets: map<PocketId, Vec3>, within: real, n: nat)
    requires s.isAnimating && 0.0 <= s.renderAlpha <= 1.0
    requires within > 0.0
    requires (n as real) * Clamp01(dt * AlphaRate) * within >= 1.0
    ensures var t := Ticks(s, dt, livePockets, within, n); !t.isAnimating && t.collisions && t.motion
  {
    DecayBound(s, dt, livePockets, within, n);
    BoundForcesEnd(Ticks(s, dt, livePockets, within, n), n, Clamp01(dt * AlphaRate), within);
  }

  /** `x` to the power `k`. */
  function Pow(x: real, k: nat): real
    decreases k
  {
    if k == 0 then 1.0 else Pow(x, k - 1) * x
  }

  /** The alpha that `k` frames of decay fraction `f` leave of a starting alpha `a`: a (1 - f)^k. */
  function GeometricAlpha(a: real, f: real, k: nat): real {
    a * Pow(1.0 - f, k)
  }

  lemma GeometricStep(a: real, f: real, k: nat)
    requires k >= 1
    ensures GeometricAlpha(a, f, k - 1) * (1.0 - f) == GeometricAlpha(a, f, k)
  {
    var p := Pow(1.0 - f, k - 1);
    assert Pow(1.0 - f, k) == p * (1.0 - f);
    assert a * p * (1.0 - f) == a * (p * (1.0 - f));
  }

  /** One frame carries "alpha is a (1 - f)^(k-1)" to "alpha is a (1 - f)^k" while the animation lasts. */
  lemma FrameKeepsGeometric(t: BallState, dt: real, livePockets: map<PocketId, Vec3>, within: real, a: real, f: real, k: nat)
    requires k >= 1 && f == Clamp01(dt * AlphaRate)
    requires t.isAnimating ==> t.renderAlpha == GeometricAlpha(a, f, k - 1)
    ensures var u := OnUpdate(t, dt, livePockets, within);
            u.isAnimating ==> u.renderAlpha == GeometricAlpha(a, f, k)
    ensures OnUpdate(t, dt, livePockets, within).isAnimating <==> t.isAnimating && !AlmostZero(GeometricAlpha(a, f, k), within)
  {
    if t.isAnimating {
      GeometricStep(a, f, k);
    }
  }

  /**
   While the animation lasts, alpha after `k` frames is exactly the starting
   alpha times (1 - f)^k: each frame keeps the same share of the previous one.
   */
  lemma {:induction false} AlphaIsGeometric(s: BallState, dt: real, livePockets: map<PocketId, Vec3>, within: real, f: real, k: nat)
    requires s.isAnimating && f == Clamp01(dt * AlphaRate)
    ensures var t := Ticks(s, dt, livePockets, within, k);
            t.isAnimating ==> t.renderAlpha == GeometricAlpha(s.renderAlpha, f, k)
    decreases k
  {
    if k > 0 {
      AlphaIsGeometric(s, dt, livePockets, within, f, k - 1);
      FrameKeepsGeometric(Ticks(s, dt, livePockets, within, k - 1), dt, livePockets, within, s.renderAlpha, f, k);
    }
  }

  /**
   The animation is still running after `n` frames exactly when none of the
   geometric alphas of frames 1 to `n` has come within the tolerance of 0.
   */
  lemma {:induction false} AnimatingExactly(s: BallState, dt: real, livePockets: map<PocketId, Vec3>, within: real, f: real, n: nat)
    requires s.isAnimating && f == Clamp01(dt * AlphaRate)
    ensures Ticks(s, dt, livePockets, within, n).isAnimating <==>
              forall j :: 1 <= j <= n ==> !AlmostZero(GeometricAlpha(s.renderAlpha, f, j), within)
    decreases n
  {
    if n > 0 {
      AnimatingExactly(s, dt, livePockets, within, f, n - 1);
      AlphaIsGeometric(s, dt, livePockets, within, f, n - 1);
      FrameKeepsGeometric(Ticks(s, dt, livePockets, within, n - 1), dt, livePockets, within, s.renderAlpha, f, n);
    }
  }

  /** Frames only ever touch alpha, position, the animating flag and the body flags. */
  lemma {:induction false} TicksKeepFacts(s: BallState, dt: real, livePockets: map<PocketId, Vec3>, within: real, n: nat)
    ensures var t := Ticks(s, dt, livePockets, within, n);
            SameIdentity(s, t) && t.lastStriker == s.lastStriker && t.lastPocket == s.lastPocket
    decreases n
  {
    if n > 0 {
      TicksKeepFacts(s, dt, livePockets, within, n - 1);
    }
  }

  /** Running `n` frames is running one frame and then `n - 1` more. */
  lemma {:induction false} TicksFirstFrame(s: BallState, dt: real, livePockets: map<PocketId, Vec3>, within: real, n: nat)
    requires n >= 1
    ensures Ticks(OnUpdate(s, dt, livePockets, within), dt, livePockets, within, n - 1) == Ticks(s, dt, livePockets, within, n)
    decreases n
  {
    if n > 1 {
      TicksFirstFrame(s, dt, livePockets, within, n - 1);
    }
  }

  /**
   Once the animation has ended, starting it again without a respawn ends on
   the very next frame, because alpha is already within the tolerance; after
   a respawn it starts again from full opacity.
   */
  lemma RestartNeedsRespawn(s: BallState, dt: real, livePockets: map<PocketId, Vec3>, within: real, p: Vec3)
    requires !s.isAnimating && 0.0 <= s.renderAlpha <= 1.0 && AlmostZero(s.renderAlpha, within)
    ensures var r := StartAnimating(s, true).value;
            r.isAnimating && !OnUpdate(r, dt, livePockets, within).isAnimating
    ensures var r := StartAnimating(Respawn(s, p), true).value;
            r.isAnimating && r.renderAlpha == 1.0
  {
  }
}

=== FILE: presentation.dfy ===
/**
 Presentation keys derived from a ball's kind and number: the renderer's
 material group and the scoreboard icon's style class. Each has a partner
 here that reads the key back, so that a key is shown to identify its ball.
 */
module Presentation {
  import opened Results
  import opened Kinds
  import Decimal

  /** Offset of the striped materials past the spotted ones and the black. */
  const StripeOffset: int := 8

  /** `GetMaterialGroup`: spots use their own number, black is group 8, stripes their number plus 8, and the cue ball the default group. */
  function GetMaterialGroup(t: BallType, n: int): (key: string)
    ensures |key| >= 1
  {
    match t
    case Black => "8"
    case Spots => Decimal.FromInt(n)
    case Stripes => Decimal.FromInt(n + StripeOffset)
    case White => "default"
  }

  /** The number painted on a ball of a standard set; the cue ball has none. */
  function PrintedNumber(t: BallType, n: int): (p: int)
    requires t != White
    ensures Regulation(t, n) ==> 1 <= p <= 15
    ensures Regulation(t, n) ==> (p == 8 <==> t == Black)
    ensures Regulation(t, n) && t == Spots ==> p < 8
    ensures Regulation(t, n) && t == Stripes ==> p > 8
  {
    match t
    case Black => 8
    case Spots => n
    case Stripes => n + 8
  }

  /** Every numbered material group names the number painted on the ball. */
  lemma MaterialGroupShowsPrintedNumber(t: BallType, n: int)
    requires t != White
    ensures Decimal.Parse(GetMaterialGroup(t, n)) == Some(PrintedNumber(t, n))
  {
    match t
    case Black =>
      assert GetMaterialGroup(t, n) == Decimal.FromInt(8);
      Decimal.FromIntRoundTrip(8);
    case Spots =>
      Decimal.FromIntRoundTrip(n);
    case Stripes =>
      Decimal.FromIntRoundTrip(n + 8);
  }

  /** Only the cue ball, whatever its number, uses the default material group. */
  lemma DefaultGroupIsCueBall(t: BallType, n: int)
    ensures GetMaterialGroup(t, n) == "default" <==> t == White
  {
    assert Decimal.Parse("default") == None by {
      assert !Decimal.IsDigit("default"[0]);
    }
    if t != White {
      MaterialGroupShowsPrintedNumber(t, n);
    }
  }

  /** Within a regulation set, two balls share a material group exactly when they are the same ball. */
  lemma MaterialGroupIdentifiesBall(t1: BallType, n1: int, t2: BallType, n2: int)
    requires Regulation(t1, n1) && Regulation(t2, n2)
    ensures GetMaterialGroup(t1, n1) == GetMaterialGroup(t2, n2) <==> SameBall(t1, n1, t2, n2)
  {
    DefaultGroupIsCueBall(t1, n1);
    DefaultGroupIsCueBall(t2, n2);
    if t1 != White && t2 != White {
      MaterialGroupShowsPrintedNumber(t1, n1);
      MaterialGroupShowsPrintedNumber(t2, n2);
    }
  }

  /** Outside the regulation numbering the offset no longer separates the kinds. */
  lemma MaterialGroupClashesOutsideRegulation(n: int)
    ensures GetMaterialGroup(Spots, 8) == GetMaterialGroup(Black, n)
    ensures GetMaterialGroup(Spots, 9) == GetMaterialGroup(Stripes, 1)
  {
    assert Decimal.FromInt(8) == "8";
    assert Decimal.FromInt(9) == Decimal.FromInt(1 + 8);
  }

  lemma MaterialGroupExamples()
    ensures GetMaterialGroup(Black, 0) == "8"
    ensures GetMaterialGroup(Spots, 5) == "5"
    ensures GetMaterialGroup(Stripes, 5) == "13"
    ensures GetMaterialGroup(White, 0) == "default"
  {
    assert Decimal.NatDigits(13) == Decimal.NatDigits(1) + [Decimal.DigitChar(3)];
  }

  function LowerChar(c: char): (l: char)
    ensures !('A' <= l <= 'Z')
    ensures !('A' <= c <= 'Z') ==> l == c
  {
    if 'A' <= c <= 'Z' then (c as int - 'A' as int + 'a' as int) as char else c
  }

  /** `ToLower()` restricted to ASCII letters, which is all an enumeration name holds. */
  function ToLower(s: string): (l: string)
    ensures |l| == |s|
    ensures forall i :: 0 <= i < |s| ==> l[i] == LowerChar(s[i])
  {
    if |s| == 0 then "" else [LowerChar(s[0])] + ToLower(s[1..])
  }

  /** `GetIconClass`: fixed classes for black and white, "kind_number" for the others. */
  function GetIconClass(t: BallType, n: int): (c: string)
    ensures |c| >= 1
  {
    match t
    case Black => "black"
    case White => "white"
    case _ => ToLower(TypeName(t)) + "_" + Decimal.FromInt(n)
  }

  function Tagged(t: BallType, n: Option<int>): Option<(BallType, int)> {
    match n
    case None => None
    case Some(k) => Some((t, k))
  }

  /** Reads an icon class back into a kind and (for numbered kinds) a number; black and white read as number 0. */
  function ParseIconClass(c: string): Option<(BallType, int)> {
    if c == "black" then Some((Black, 0))
    else if c == "white" then Some((White, 0))
    else if |c| >= 6 && c[..6] == "spots_" then Tagged(Spots, Decimal.Parse(c[6..]))
    else if |c| >= 8 && c[..8] == "stripes_" then Tagged(Stripes, Decimal.Parse(c[8..]))
    else None
  }

  lemma LowerNames()
    ensures ToLower(TypeName(Spots)) == "spots"
    ensures ToLower(TypeName(Stripes)) == "stripes"
  {
    var s := ToLower("Spots");
    assert s[0] == 's' && s[1] == 'p' && s[2] == 'o' && s[3] == 't' && s[4] == 's';
    var t := ToLower("Stripes");
    assert t[0] == 's' && t[1] == 't' && t[2] == 'r' && t[3] == 'i' && t[4] == 'p' && t[5] == 'e' && t[6] == 's';
  }

  lemma SpotsIconRoundTrip(n: int)
    ensures ParseIconClass(GetIconClass(Spots, n)) == Some((Spots, n))
  {
    LowerNames();
    var digits := Decimal.FromInt(n);
    Decimal.FromIntRoundTrip(n);
    var c := "spots_" + digits;
    assert GetIconClass(Spots, n) == c;
    assert c != "black" && c != "white" by { assert c[0] == 's'; }
    assert |c| >= 6 && c[..6] == "spots_" && c[6..] == digits;
  }

  lemma StripesIconRoundTrip(n: int)
    ensures ParseIconClass(GetIconClass(Stripes, n)) == Some((Stripes, n))
  {
    LowerNames();
    var digits := Decimal.FromInt(n);
    Decimal.FromIntRoundTrip(n);
    var c := "stripes_" + digits;
    assert GetIconClass(Stripes, n) == c;
    assert c != "black" && c != "white" by { assert c[0] == 's'; }
    assert c[..6] != "spots_" by { assert c[1] == 't'; }
    assert |c| >= 8 && c[..8] == "stripes_" && c[8..] == digits;
  }

  /** The icon class of every ball reads back as its kind and, where the kind is numbered, its number. */
  lemma IconClassRoundTrip(t: BallType, n: int)
    ensures ParseIconClass(GetIconClass(t, n)) == Some((t, if Numbered(t) then n else 0))
  {
    match t
    case Black =>
    case White =>
    case Spots => SpotsIconRoundTrip(n);
    case Stripes => StripesIconRoundTrip(n);
  }

  /** Two balls share an icon class exactly when they are the same ball, for every numbering. */
  lemma IconClassIdentifiesBall(t1: BallType, n1: int, t2: BallType, n2: int)
    ensures GetIconClass(t1, n1) == GetIconClass(t2, n2) <==> SameBall(t1, n1, t2, n2)
  {
    IconClassRoundTrip(t1, n1);
    IconClassRoundTrip(t2, n2);
  }

  lemma IconClassExamples()
    ensures GetIconClass(Spots, 3) == "spots_3"
    ensures GetIconClass(Stripes, 7) == "stripes_7"
    ensures GetIconClass(Black, 0) == "black" && GetIconClass(White, 0) == "white"
  {
    LowerNames();
  }
}

=== FILE: results.dfy ===
/** Outcomes of the entry points that assert host authority. */
module Results {

  datatype Option<+T> = None | Some(value: T)

  /**
   An entry point that asserts it runs on the host is aborted when it does not:
   such a call yields `AuthorityViolation` and no new state.
   */
  datatype Outcome<+T> = Ok(value: T) | AuthorityViolation
}

=== FILE: rules.dfy ===
/**
 The striking rule: which ball a player may hit. The rules engine's answer to
 "whose ball is this?" is passed in as `owner`; players are compared by
 identity, as the source compares references.
 */
module Rules {
  import opened Results
  import opened Kinds

  type PlayerId = nat

  /**
   A player's assigned kind (`White` while the table is still open, i.e. the
   player holds the cue-ball role) and how many balls of that kind remain.
   */
  datatype Player = Player(id: PlayerId, ballType: BallType, ballsLeft: int)

  function CanPlayerHit(kind: BallType, owner: Option<PlayerId>, player: Player): (r: bool)
    ensures player.ballType == White ==> (r <==> kind != Black)
    ensures player.ballType != White ==> (r <==> owner == Some(player.id) || (kind == Black && player.ballsLeft == 0))
  {
    if player.ballType == White then kind != Black
    else if owner == Some(player.id) then true
    else kind == Black && player.ballsLeft == 0
  }

  /** An assigned player may not hit a non-black ball that the rules engine gives to someone else. */
  lemma OthersBallsForbidden(kind: BallType, owner: Option<PlayerId>, player: Player)
    requires player.ballType != White && kind != Black
    ensures CanPlayerHit(kind, owner, player) <==> owner == Some(player.id)
  {
  }

  /** The black opens up for a player exactly when that player's balls are gone (unless it is assigned to them). */
  lemma BlackOnlyWhenCleared(owner: Option<PlayerId>, player: Player)
    requires owner != Some(player.id)
    ensures CanPlayerHit(Black, owner, player) <==> player.ballType != White && player.ballsLeft == 0
  {
  }

  /** Clearing one's own balls never takes away a ball one could hit before. */
  lemma ClearingNeverRevokes(kind: BallType, owner: Option<PlayerId>, player: Player)
    requires CanPlayerHit(kind, owner, player)
    ensures CanPlayerHit(kind, owner, player.(ballsLeft := 0))
  {
  }

  /** The answer depends on the player's identity only through the ownership test. */
  lemma IdentityOnlyThroughOwner(kind: BallType, owner: Option<PlayerId>, player: Player, other: PlayerId)
    requires owner != Some(player.id) && owner != Some(other)
    ensures CanPlayerHit(kind, owner, player) == CanPlayerHit(kind, owner, player.(id := other))
  {
  }
}

=== FILE: session.dfy ===
/**
 A ball's life on one participant as a sequence of events: the broadcast
 transitions it receives, the calls it makes itself, frames, and contacts.
 Broadcast bodies run on every participant. An entry point that asserts host
 authority and fails throws before it changes anything, and the participant
 carries on with the next event; the run counts such failures.
 */
module Session {
  import opened Results
  import opened Table
  import opened Rules
  import Ball
  import Pocketing

  datatype Event =
    | EnterPocket(pocket: Ball.PocketId)
    | DisableCollisions
    | EnableCollisions
    | StartPlacing
    | StopPlacing
    | Respawn(position: Vec3)
    | TryMoveTo(position: Vec3)
    | StartAnimating
    | Frame(dt: real, livePockets: map<Ball.PocketId, Vec3>)
    | CollisionStart(other: Option<Ball.OtherBall>, currentPlayer: Option<PlayerId>)

  type Trace = Outcome<(Ball.BallState, seq<Ball.Notification>)>

  /** One event on a participant, with the notifications it sends to the rules engine. */
  function Step(s: Ball.BallState, isHost: bool, within: real, e: Event): Trace {
    match e
    case EnterPocket(pocket) =>
      (match Ball.EnterPocket(s, isHost, pocket)
       case Ok(r) => Ok((r.0, [r.1]))
       case AuthorityViolation => AuthorityViolation)
    case DisableCollisions => Ok((Ball.DisableCollisions(s), []))
    case EnableCollisions => Ok((Ball.EnableCollisions(s), []))
    case StartPlacing => Ok((Ball.StartPlacing(s), []))
    case StopPlacing => Ok((Ball.StopPlacing(s), []))
    case Respawn(p) => Ok((Ball.Respawn(s, p), []))
    case TryMoveTo(p) => Ok((Ball.TryMoveTo(s, isHost, p), []))
    case StartAnimating =>
      (match Ball.StartAnimating(s, isHost)
       case Ok(r) => Ok((r, []))
       case AuthorityViolation => AuthorityViolation)
    case Frame(dt, livePockets) => Ok((Pocketing.OnUpdate(s, dt, livePockets, within), []))
    case CollisionStart(other, currentPlayer) => Ok(Ball.CollisionStart(s, isHost, other, currentPlayer))
  }

  /** Where a run ends: the state, the notifications in order, and how many events failed the host assertion. */
  datatype RunResult = RunResult(state: Ball.BallState, notes: seq<Ball.Notification>, violations: nat)

  /** The events in order; an event that fails the host assertion leaves the state as it was. */
  function Run(s: Ball.BallState, isHost: bool, within: real, events: seq<Event>): (r: RunResult)
    ensures r.violations <= |events|
    decreases |events|
  {
    if |events| == 0 then RunResult(s, [], 0)
    else
      match Step(s, isHost, within, events[0])
      case AuthorityViolation =>
        var rest := Run(s, isHost, within, events[1..]);
        rest.(violations := rest.violations + 1)
      case Ok(first) =>
        var rest := Run(first.0, isHost, within, events[1..]);
        RunResult(rest.state, first.1 + rest.notes, rest.violations)
  }

  function Frames(dt: real, livePockets: map<Ball.PocketId, Vec3>, n: nat): (es: seq<Event>)
    ensures |es| == n
    ensures forall i :: 0 <= i < n ==> es[i] == Frame(dt, livePockets)
  {
    seq(n, _ => Frame(dt, livePockets))
  }

  /** Every event keeps alpha a fraction and the ball's kind and number fixed. */
  lemma StepKeepsAlphaAndIdentity(s: Ball.BallState, isHost: bool, within: real, e: Event)
    requires 0.0 <= s.renderAlpha <= 1.0
    ensures Step(s, isHost, within, e).Ok? ==>
              var r := Step(s, isHost, within, e).value.0;
              0.0 <= r.renderAlpha <= 1.0 && Ball.SameIdentity(s, r)
  {
  }

  /** At every point of every run, alpha stays in [0, 1] and kind and number never change. */
  lemma {:induction false} RunKeepsAlphaAndIdentity(s: Ball.BallState, isHost: bool, within: real, events: seq<Event>)
    requires 0.0 <= s.renderAlpha <= 1.0
    ensures var r := Run(s, isHost, within, events).state;
            0.0 <= r.renderAlpha <= 1.0 && Ball.SameIdentity(s, r)
    decreases |events|
  {
    if |events| > 0 {
      StepKeepsAlphaAndIdentity(s, isHost, within, events[0]);
      var first := Step(s, isHost, within, events[0]);
      if first.Ok? {
        RunKeepsAlphaAndIdentity(first.value.0, isHost, within, events[1..]);
      } else {
        RunKeepsAlphaAndIdentity(s, isHost, within, events[1..]);
      }
    }
  }

  /**
   A participant that is not the host originates nothing the game depends on:
   it never records a striker or a pocket, never starts an animation and never
   notifies the rules engine.
   */
  lemma PeerStepOriginatesNothing(s: Ball.BallState, within: real, e: Event)
    ensures Step(s, false, within, e).Ok? ==>
              var r := Step(s, false, within, e).value;
              && r.0.lastStriker == s.lastStriker && r.0.lastPocket == s.lastPocket
              && (r.0.isAnimating ==> s.isAnimating) && r.1 == []
  {
  }

  lemma {:induction false} PeerRunOriginatesNothing(s: Ball.BallState, within: real, events: seq<Event>)
    ensures var r := Run(s, false, within, events);
            && r.state.lastStriker == s.lastStriker && r.state.lastPocket == s.lastPocket
            && (r.state.isAnimating ==> s.isAnimating) && r.notes == []
    decreases |events|
  {
    if |events| > 0 {
      PeerStepOriginatesNothing(s, within, events[0]);
      var first := Step(s, false, within, events[0]);
      if first.Ok? {
        PeerRunOriginatesNothing(first.value.0, within, events[1..]);
      } else {
        PeerRunOriginatesNothing(s, within, events[1..]);
      }
    }
  }

  /** Every event succeeds on the host: only a non-host can fail the host assertion. */
  lemma HostStepSucceeds(s: Ball.BallState, within: real, e: Event)
    ensures Step(s, true, within, e).Ok?
  {
  }

  lemma {:induction false} HostRunHasNoViolations(s: Ball.BallState, within: real, events: seq<Event>)
    ensures Run(s, true, within, events).violations == 0
    decreases |events|
  {
    if |events| > 0 {
      HostStepSucceeds(s, within, events[0]);
      HostRunHasNoViolations(Step(s, true, within, events[0]).value.0, within, events[1..]);
    }
  }

  /**
   On a non-host, `EnterPocket` is refused and `StartAnimating` is refused
   unless the ball is already animating; every other event goes through.
   */
  lemma PeerStepFailsExactly(s: Ball.BallState, within: real, e: Event)
    ensures Step(s, false, within, e).AuthorityViolation? <==>
              e.EnterPocket? || (e.StartAnimating? && !s.isAnimating)
  {
  }

  /** A run of frames notifies nothing and ends where `n` frames of `OnUpdate` end. */
  lemma {:induction false} FramesRun(s: Ball.BallState, isHost: bool, within: real, dt: real,
                                     livePockets: map<Ball.PocketId, Vec3>, n: nat)
    ensures Run(s, isHost, within, Frames(dt, livePockets, n)) == RunResult(Pocketing.Ticks(s, dt, livePockets, within, n), [], 0)
    decreases n
  {
    if n > 0 {
      var es := Frames(dt, livePockets, n);
      assert es[1..] == Frames(dt, livePockets, n - 1);
      var s1 := Pocketing.OnUpdate(s, dt, livePockets, within);
      assert es[0] == Frame(dt, livePockets);
      assert Step(s, isHost, within, es[0]) == Ok((s1, []));
      FramesRun(s1, isHost, within, dt, livePockets, n - 1);
      Pocketing.TicksFirstFrame(s, dt, livePockets, within, n);
      var empty: seq<Ball.Notification> := [];
      assert empty + empty == empty;
    }
  }

  /**
   The pocketing sequence end to end, on the host: the ball enters a pocket,
   starts animating, and after enough frames it has stopped animating with
   collisions and motion back on; the rules engine heard of the pocket exactly
   once.
   */
  lemma PocketingScenario(s: Ball.BallState, within: real, pocket: Ball.PocketId, dt: real,
                          livePockets: map<Ball.PocketId, Vec3>, n: nat)
    requires !s.isAnimating && 0.0 <= s.renderAlpha <= 1.0
    requires within > 0.0
    requires (n as real) * Pocketing.Clamp01(dt * Pocketing.AlphaRate) * within >= 1.0
    ensures var r := Run(s, true, within, [EnterPocket(pocket), StartAnimating] + Frames(dt, livePockets, n));
            && r.violations == 0
            && r.notes == [Ball.BallEnteredPocket(pocket)]
            && !r.state.isAnimating && r.state.collisions && r.state.motion
            && r.state.lastPocket == Some(pocket)
            && Ball.SameIdentity(s, r.state)
  {
    var events := [EnterPocket(pocket), StartAnimating] + Frames(dt, livePockets, n);
    var s1 := s.(lastPocket := Some(pocket));
    var s2 := Ball.StartAnimating(s1, true).value;
    assert events[1..][1..] == Frames(dt, livePockets, n);
    FramesRun(s2, true, within, dt, livePockets, n);
    assert Run(s1, true, within, events[1..]) == Run(s2, true, within, Frames(dt, livePockets, n));
    Pocketing.PocketingEnds(s2, dt, livePockets, within, n);
    Pocketing.TicksKeepFacts(s2, dt, livePockets, within, n);
  }
}

=== FILE: table.dfy ===
/**
 Table geometry: the play-area rectangle, the kitchen (the ball-in-hand region
 after the break) and the placement rule that chooses between them.

 Each source predicate takes an optional position whose default is the zero
 vector; a zero argument is replaced by the ball's current position. The
 `...At` functions model that entry point, the plain ones the explicit test.
 */
module Table {

  datatype Vec3 = Vec3(x: real, y: real, z: real)

  const Zero := Vec3(0.0, 0.0, 0.0)

  /** Exclusive table limits, in world units. */
  const MinX: real := -25.0
  const MaxX: real := 22.0
  const MinY: real := -48.0
  const MaxY: real := 46.0

  /** The kitchen starts here along y and has no other limit. */
  const KitchenMinY: real := 15.0

  /** The rejection test of `IsInBounds`: any coordinate on or past a limit. */
  function IsInBounds(p: Vec3): (r: bool)
    ensures r <==> MinX < p.x < MaxX && MinY < p.y < MaxY
  {
    !(p.x >= MaxX || p.x <= MinX || p.y >= MaxY || p.y <= MinY)
  }

  function IsInKitchen(p: Vec3): (r: bool)
    ensures r <==> p.y >= KitchenMinY
  {
    !(p.y < KitchenMinY)
  }

  /** The round-1 rule replaces the bounds test; it does not add to it. */
  function IsBallPlacementValid(p: Vec3, roundCount: int): (r: bool)
    ensures roundCount == 1 ==> (r <==> IsInKitchen(p))
    ensures roundCount != 1 ==> (r <==> IsInBounds(p))
  {
    var inBounds := IsInBounds(p);
    if roundCount == 1 then IsInKitchen(p) else inBounds
  }

  /** A position argument equal to the default (zero) vector falls back to the current position. */
  function Resolve(arg: Vec3, current: Vec3): (p: Vec3)
    ensures arg != Zero ==> p == arg
    ensures arg == Zero ==> p == current
  {
    if arg == Zero then current else arg
  }

  /** The bounds test as called with an optional position: the fallback, then `IsInBounds`. */
  function IsInBoundsAt(arg: Vec3, current: Vec3): (r: bool)
    ensures arg == Zero ==> (r <==> MinX < current.x < MaxX && MinY < current.y < MaxY)
    ensures arg != Zero ==> (r <==> MinX < arg.x < MaxX && MinY < arg.y < MaxY)
  {
    IsInBounds(Resolve(arg, current))
  }

  /** The kitchen test as called with an optional position: the fallback, then `IsInKitchen`. */
  function IsInKitchenAt(arg: Vec3, current: Vec3): (r: bool)
    ensures arg == Zero ==> (r <==> current.y >= KitchenMinY)
    ensures arg != Zero ==> (r <==> arg.y >= KitchenMinY)
  {
    IsInKitchen(Resolve(arg, current))
  }

  /** The placement test as called with an optional position: the fallback, then `IsBallPlacementValid`. */
  function IsBallPlacementValidAt(arg: Vec3, current: Vec3, roundCount: int): (r: bool)
    ensures roundCount == 1 ==> (r <==> IsInKitchenAt(arg, current))
    ensures roundCount != 1 ==> (r <==> IsInBoundsAt(arg, current))
  {
    IsBallPlacementValid(Resolve(arg, current), roundCount)
  }

  /** Only the planar coordinates matter to every table test. */
  lemma HeightIgnored(p: Vec3, z: real, roundCount: int)
    ensures IsInBounds(p.(z := z)) == IsInBounds(p)
    ensures IsInKitchen(p.(z := z)) == IsInKitchen(p)
    ensures IsBallPlacementValid(p.(z := z), roundCount) == IsBallPlacementValid(p, roundCount)
  {
  }

  /** The centre spot is on the table, and the limits themselves are off it. */
  lemma BoundaryExamples()
    ensures IsInBounds(Zero)
    ensures !IsInBounds(Vec3(MaxX, 0.0, 0.0)) && !IsInBounds(Vec3(MinX, 0.0, 0.0))
    ensures !IsInBounds(Vec3(0.0, MaxY, 0.0)) && !IsInBounds(Vec3(0.0, MinY, 0.0))
    ensures !IsInBounds(Vec3(23.0, 0.0, 0.0)) && !IsInBounds(Vec3(-26.0, 0.0, 0.0))
    ensures !IsInBounds(Vec3(0.0, 47.0, 0.0)) && !IsInBounds(Vec3(0.0, -49.0, 0.0))
    ensures IsInKitchen(Vec3(0.0, 16.0, 0.0)) && IsInKitchen(Vec3(0.0, KitchenMinY, 0.0))
    ensures !IsInKitchen(Vec3(0.0, 14.0, 0.0))
  {
  }

  /**
   In round 1 a position beyond the far cushion, or beside the table, is still a
   valid placement: the kitchen has no upper or side limit.
   */
  lemma RoundOneIgnoresBounds()
    ensures var p := Vec3(0.0, 100.0, 0.0); IsBallPlacementValid(p, 1) && !IsInBounds(p)
    ensures var p := Vec3(-40.0, 20.0, 0.0); IsBallPlacementValid(p, 1) && !IsInBounds(p)
  {
  }

  /**
   An explicit zero argument is indistinguishable from "no argument": the
   table centre is judged at wherever the ball currently is.
   */
  lemma ZeroArgumentMeansCurrentPosition(current: Vec3, roundCount: int)
    ensures IsInBoundsAt(Zero, current) == IsInBounds(current)
    ensures IsInKitchenAt(Zero, current) == IsInKitchen(current)
    ensures IsBallPlacementValidAt(Zero, current, roundCount) == IsBallPlacementValid(current, roundCount)
    ensures IsInBounds(Zero) && !IsInBoundsAt(Zero, Vec3(30.0, 0.0, 0.0))
  {
  }

  /** Any other argument is judged as given, whatever the current position. */
  lemma ExplicitArgumentUsed(arg: Vec3, current: Vec3, roundCount: int)
    requires arg != Zero
    ensures IsInBoundsAt(arg, current) == IsInBounds(arg)
    ensures IsInKitchenAt(arg, current) == IsInKitchen(arg)
    ensures IsBallPlacementValidAt(arg, current, roundCount) == IsBallPlacementValid(arg, roundCount)
  {
  }
}
